=== FILE: README.md ===
# Image banner: resolution and rotation model

A Dafny model of the promotional-banner carousel in `src/component/ImageBanner.tsx`.
The widget works out which banner images exist, caches the list for the browsing
session and rotates through it. The model covers the four pieces of control flow
behind that:

- **Remote probe** (`Probe`). For candidates 1..5 the widget sends a HEAD check for
  `{base}/banners/{i}.png`. Only when that answers not-ok does it check `.jpg`. The
  first variant that answers ok is appended. A thrown check drops that candidate, and
  probing goes on with the next one. The network is an oracle from URL to
  `Ok | NotOk | Throw`. `ProbeUpTo` is the reference definition. `ProbeRemote` is the
  component's own counting loop, proved equal to it.
- **Local fallback** (`ManifestFallback`). This runs only when the probe found
  nothing. It reads the manifest `/banners/config.json` and builds `/banners/1.jpg` ..
  `/banners/{n}.jpg`. If the fetch throws, it uses a fixed list of three.
- **Orchestrator with session cache** (`Resolution`). A hard reload removes the
  session entry `banners`. A stored list short-circuits everything. Otherwise the
  widget probes, falls back, and writes the result. An unreadable entry or a failed
  write is caught by the outer handler, which installs the three defaults in local
  mode.
- **Rotation state machine** (`Rotation`). This covers the current index, the
  auto-slide interval, next/previous/jump navigation, and dropping an image that
  fails to render, with the index repaired afterwards. Its invariant `Valid` says
  four things: the index is in range for a non-empty list, every live interval is the
  one the timer reference names (so at most one is live), the timer reference never
  names a handle that was not yet issued, and no interval is live with fewer than two
  banners. Every transition preserves it.

`Decimal` renders `${i}` and proves that rendering injective. With `BannerUrls.RemoteUrlInjective`,
this lets the model read the probe's answer back from the URL list alone.

Behaviour of the code that the model pins down:

- A cache hit leaves local (public-folder) mode off, even when the cached list holds
  local references.
- A malformed cached payload makes the parse throw inside the outer `try`. The three
  defaults are installed in local mode, nothing is probed and nothing is written.
- A thrown png check drops that candidate: its jpg variant is never checked.
- With three banners, index 2 and a failure at position 1, two banners remain and the
  index is reset to 0 (`Rotation.FailureResetsIndexExample`).
- Failing the same in-range position twice drops two consecutive entries, because the
  entry after the first failure moves into that position
  (`Rotation.RepeatedFailureDropsNext`).

Collaborators that are parameters of the model: the HEAD oracle (`Probe.Oracle`),
the manifest outcome (`ManifestFallback.Manifest`), the configured asset host
(`NEXT_PUBLIC_R2_URL`, unset or a string, resolved by `BannerUrls.BaseUrl`), the
session entry as found (`Resolution.Store`), whether the session write succeeds, and
the hard-reload signal (navigation type 1) as a boolean.

## Model

| member | source | states |
|---|---|---|
| Decimal.NatToStringInjective | src/component/ImageBanner.tsx:34-35 | distinct candidate indices render to distinct file-name text, so a file name determines its index |
| BannerUrls.RemoteUrlInjective | src/component/ImageBanner.tsx:34-35 | on one host, a remote reference determines both its candidate index and its variant (png or jpg) |
| BannerUrls.LocalRange | src/component/ImageBanner.tsx:64-75 | the counting loops produce exactly `/banners/1.jpg` .. `/banners/{n}.jpg`, in order |
| BannerUrls.DefaultBannersAreLocalRange | src/component/ImageBanner.tsx:79 | the hard-coded three-entry list is exactly the first three local references |
| Probe.ProbeHitsOrdered | src/component/ImageBanner.tsx:33-51 | probing 1..n yields at most n hits, all from 1..n, in strictly increasing index order, so at most one per index |
| Probe.ProbeHitsExact | src/component/ImageBanner.tsx:37-50 | a candidate is a hit with a given variant exactly when that variant is the one its checks accept: png on ok; jpg when png answered not-ok and jpg ok; none on a thrown png check |
| Probe.ProbeRequestsExact | src/component/ImageBanner.tsx:37-50 | every candidate gets a png check, including candidates after one that threw; the jpg check is issued exactly when png answered not-ok |
| Probe.ProbeRequestsOrdered | src/component/ImageBanner.tsx:33-50 | checks are issued in index order, png before jpg, and never twice |
| Probe.ProbeBounded | src/component/ImageBanner.tsx:33-51 | the probe lists at most 5 references; each one is the png or jpg reference of a candidate in 1..5, and none is listed twice |
| Probe.ProbeOnConfiguredHost | src/component/ImageBanner.tsx:22-35 | a set, non-empty host setting puts every listed reference under `{host}/banners/`; an unset or empty setting (both falsy in JavaScript) puts every one under `https://example.com/banners/` |
| Probe.ProbePreference | src/component/ImageBanner.tsx:37-47 | in terms of the URL list alone: png reference k is listed iff its check is ok; jpg reference k is listed iff png answered not-ok and jpg ok |
| Probe.ProbeChecks | src/component/ImageBanner.tsx:37-50 | for every candidate 1..5 a png check is issued; a jpg check is issued iff png answered not-ok, so never after a throw |
| Probe.CheckCandidate | src/component/ImageBanner.tsx:34-50 | one pass of the loop body (with `continue` and the swallowing `catch`) finds exactly the accepted variant's reference and issues exactly that candidate's checks |
| Probe.ProbeRemote | src/component/ImageBanner.tsx:33-51 | the component's for-loop yields the same list and the same checks, in the same order, as the reference probe |
| Probe.ProbeFindsNothing | src/component/ImageBanner.tsx:33-53 | when no candidate is accepted the probe finds nothing, which is exactly the condition that triggers the fallback |
| ManifestFallback.ResolveFallback | src/component/ImageBanner.tsx:57-80 | never empty, always a prefix run of local references: `count` entries for a positive count; 5 for a missing or non-positive count or a non-ok response; the fixed three when the fetch throws |
| Resolution.ReloadIgnoresStore | src/component/ImageBanner.tsx:139-143 | on a hard reload the stored entry cannot affect the result: any two stores give the same mount, and that mount is the one a first visit with an empty store would make |
| Resolution.Mount | src/component/ImageBanner.tsx:18-93 | a cache hit returns the cached list with no checks and local mode off. A malformed entry gives the three defaults in local mode with no checks and no write. A miss probes every candidate on the configured host (or the default host), and the fallback runs exactly when the probe found nothing. A successful write stores the non-empty result, and local mode is on exactly when the fallback ran. A failed write gives the three defaults in local mode |
| Resolution.CacheRoundTrip | src/component/ImageBanner.tsx:26-31 | after a mount that missed and wrote its list, the next mount without a reload signal is answered from the cache with the same list and no checks |
| Resolution.SessionNeverEmpty | src/component/ImageBanner.tsx:53-90 | from any store the widget itself could have left, a mount resolves a non-empty list and leaves such a store behind |
| Resolution.AllMissingManifestCountExample | src/component/ImageBanner.tsx:57-66 | every check not-ok and a manifest count of 4 give exactly four sequential local references in local mode, written to the store |
| Resolution.AllMissingManifestThrowsExample | src/component/ImageBanner.tsx:77-80 | every check not-ok and a throwing manifest fetch give the fixed three entries in local mode |
| Resolution.OneAndThreeFoundExample | src/component/ImageBanner.tsx:33-54 | when only candidates 1 and 3 exist, as png, the result is exactly those two references, in order, in remote mode, without the fallback |
| Rotation.AtMostOneLive | src/component/ImageBanner.tsx:127-137 | in every valid state at most one interval is live, and it is the one the timer reference names |
| Rotation.ClearTimer | src/component/ImageBanner.tsx:110-112 | clearing the referenced interval leaves nothing live and keeps the reference |
| Rotation.StartTimer | src/component/ImageBanner.tsx:127-137 | with fewer than two banners nothing changes; otherwise the old interval is cleared and exactly one fresh interval is live |
| Rotation.ListChanged | src/component/ImageBanner.tsx:146-154 | when the list changes identity, the old interval is cleared and a new one started; an interval is live exactly when there are at least two banners |
| Rotation.Mounted | src/component/ImageBanner.tsx:12-16 | the resolved list arrives at a fresh carousel in a valid state with index 0, rotating iff it has at least two banners |
| Rotation.Tick | src/component/ImageBanner.tsx:134-136 | a firing advances the index by one and wraps from the last banner to the first, staying in range |
| Rotation.Navigate | src/component/ImageBanner.tsx:107-125 | ignored on an empty list; otherwise moves to next (wrapping), previous (0 goes to the last) or the chosen index; the interval is restarted, never duplicated; the invariant holds for every offered request |
| Rotation.RemoveAt | src/component/ImageBanner.tsx:98-99 | the entry at the position is removed and the others keep their order (a permutation minus that entry); a position past the end removes nothing |
| Rotation.ImageFailed | src/component/ImageBanner.tsx:96-105 | the failed entry is dropped; the index is reset to 0 exactly when it now points past the end of a non-empty list, and is otherwise left unchanged; validity is kept |
| Rotation.Unmount | src/component/ImageBanner.tsx:149-153 | teardown leaves no interval live |
| Rotation.Run | src/component/ImageBanner.tsx:96-154 | after any sequence of firings, navigations and image failures the index stays in range, at most one interval is live, and the list never grows |
| Rotation.NextPrevInverse | src/component/ImageBanner.tsx:117-121 | previous undoes next and next undoes previous |
| Rotation.PrevIsModularDecrement | src/component/ImageBanner.tsx:120 | the previous-button rule equals `(index - 1 + n) mod n` on in-range indices |
| Rotation.TickAgreesWithNext | src/component/ImageBanner.tsx:134-136 | a timer firing and the next button select the same index |
| Rotation.TicksAdvance | src/component/ImageBanner.tsx:134-136 | k firings advance the index by k modulo the list length |
| Rotation.RepeatedFailureDropsNext | src/component/ImageBanner.tsx:96-105 | failing the same in-range position twice drops two consecutive entries, so removal is not idempotent |
| Rotation.FailurePastEndKeepsList | src/component/ImageBanner.tsx:98-99 | failing a position past the end leaves the list and the index as they were |
| Rotation.FailureResetsIndexExample | src/component/ImageBanner.tsx:100-102 | with three banners at index 2, a failure at 1 leaves two banners and index 0, with one interval live |
| Rotation.JumpThenTickExample | src/component/ImageBanner.tsx:114-136 | with four banners, a jump to 3 and then one firing wraps to 0, with exactly one interval live |

## Left out

- Rendering: the loading skeleton, the empty-state message, the choice between `next/image` and `<img>`, and the navigation controls being drawn only for more than one banner. Only the local-mode flag is kept. `isLoading` is left out because it only selects what is drawn.
- The network: HEAD checks and the manifest fetch are the oracle `Probe.Oracle` and the value `ManifestFallback.Manifest`. `response.json()` throwing is part of `ManifestThrow`.
- Session storage and JSON: the entry is `Resolution.Store`. An empty stored string is falsy in the source and counts as absent (`None`). A payload that fails to parse is `Malformed`. A payload that parses to something other than a list of strings is not modelled.
- A session store that throws on access is not modelled. On a reload, `removeItem` (line 141) runs outside any `try`, so a throw there ends the effect before `loadBanners` runs. A throwing `setItem` is modelled, as a failed write.
- The reload signal is the navigation type of the page load (line 140), so it belongs to the document, not to one mount. On a page that was loaded by a reload, every mount sees the signal, removes the entry and probes again, so such a page never reads back its own cache. `Resolution.CacheRoundTrip` is about a second mount without the signal.
- Manifest counts that are not integers: JavaScript loop semantics for fractional or non-numeric counts are not modelled. The count is an `int`, and a falsy count is `None`.
- The 5000 ms period and real time: an interval is an abstract handle, and a firing is the `Fire` event.
- Stale React closures: `handleImageError` reads a captured `currentBannerIndex`, and `changeBanner` and the interval callback capture `banners.length`. The model always uses the current state.
- Asynchrony: the probe awaits each check in turn, so there is no interleaving to model. A resolution still in flight at unmount is not modelled.
- Diagnostic logging: the `console.log` and `console.error` calls in the three `catch` blocks have no effect on the result and are not modelled.
- Rotation.Navigate: jump targets are natural numbers. The indicators only produce 0..n-1, and a negative argument to `changeBanner` cannot arise. `Rotation.Run` ignores a jump to an index no indicator is drawn for.
- Rotation.Tick: requires the invariant, because the interval fires only while live, and it is live only with at least two banners. A firing on an empty list (`x % 0` in JavaScript) cannot occur.
- `src/component/auth/RegistarModal.tsx`, `src/component/auth/LoginButton.tsx`, `src/component/auth/ProfileMenu.tsx`, `src/component/GNB.tsx`, `src/app/layout.tsx`, `src/app/page.tsx`: authentication forms, OAuth plumbing and page layout, with no banner logic. `isFormValid` depends on `lib/supabase`, which is not part of this model.

=== FILE: banner_urls.dfy ===
/** The banner references the widget builds: remote files on the asset host
    (`{base}/banners/{i}.png` or `.jpg`) and local files served by the app itself
    (`/banners/{i}.jpg`), plus the constants that bound discovery. */
module BannerUrls {
  import opened Options
  import opened Decimal

  /** Number of candidate indices probed on the asset host, and the size of the
      local list used when the manifest gives no usable count. */
  const MaxBanners: nat := 5

  /** The asset host used when no host is configured. */
  const DefaultHost: string := "https://example.com"

  /** The fixed list used when the manifest fetch throws or loading fails outright. */
  const DefaultBanners: seq<string> := ["/banners/1.jpg", "/banners/2.jpg", "/banners/3.jpg"]

  /** The two file variants tried for each remote candidate, in this order. */
  datatype Ext = Png | Jpg

  function ExtName(e: Ext): (s: string)
    ensures |s| == 3
  {
    match e
    case Png => "png"
    case Jpg => "jpg"
  }

  /** The configured host, or the default host when the setting is unset or empty
      (JavaScript's `||` treats the empty string as missing). */
  function BaseUrl(configured: Option<string>): string {
    match configured
    case Some(v) => if v != "" then v else DefaultHost
    case None => DefaultHost
  }

  function RemoteUrl(base: string, i: nat, e: Ext): string {
    base + "/banners/" + NatToString(i) + "." + ExtName(e)
  }

  function LocalUrl(i: nat): string {
    "/banners/" + NatToString(i) + ".jpg"
  }

  /** The local references `/banners/1.jpg` .. `/banners/{n}.jpg`, in order. */
  predicate IsLocalRange(list: seq<string>, n: nat) {
    && |list| == n
    && forall k :: 0 <= k < n ==> list[k] == LocalUrl(k + 1)
  }

  /** `/banners/1.jpg` .. `/banners/{n}.jpg`, built by appending as the source's
      counting loops do. */
  function LocalRange(n: nat): (list: seq<string>)
    ensures IsLocalRange(list, n)
  {
    if n == 0 then [] else LocalRange(n - 1) + [LocalUrl(n)]
  }

  /** The hard-coded three-entry list is exactly the first three local references. */
  lemma DefaultBannersAreLocalRange()
    ensures IsLocalRange(DefaultBanners, 3)
    ensures DefaultBanners == LocalRange(3)
  {
    SmallValues();
  }

  /** If two strings agree after a common prefix is removed, the rests agree. */
  /** A reference lies under `{host}/banners/`. */
  predicate OnHost(u: string, host: string) {
    |u| > |host| + 9 && u[..|host| + 9] == host + "/banners/"
  }

  /** Every remote reference lies under its host's banner folder. */
  lemma RemoteUrlOnHost(base: string, i: nat, e: Ext)
    ensures OnHost(RemoteUrl(base, i, e), base)
  {
    var p := base + "/banners/";
    var rest := NatToString(i) + "." + ExtName(e);
    assert RemoteUrl(base, i, e) == p + rest;
    assert (p + rest)[..|p|] == p;
  }

  lemma StripPrefix(p: string, x: string, y: string)
    requires p + x == p + y
    ensures x == y
  {
    assert x == (p + x)[|p|..];
    assert y == (p + y)[|p|..];
  }

  /** A remote reference on a given host determines both the candidate index and
      the file variant it was built from. */
  lemma RemoteUrlInjective(base: string, i: nat, e: Ext, j: nat, f: Ext)
    requires RemoteUrl(base, i, e) == RemoteUrl(base, j, f)
    ensures i == j && e == f
  {
    var p := base + "/banners/";
    var x, y := NatToString(i) + "." + ExtName(e), NatToString(j) + "." + ExtName(f);
    assert RemoteUrl(base, i, e) == p + x;
    assert RemoteUrl(base, j, f) == p + y;
    StripPrefix(p, x, y);
    assert |NatToString(i)| == |NatToString(j)|;
    assert ExtName(e) == x[|x| - 3..] == y[|y| - 3..] == ExtName(f);
    assert NatToString(i) == x[..|x| - 4] == y[..|y| - 4] == NatToString(j);
    NatToStringInjective(i, j);
  }
}

=== FILE: decimal.dfy ===
/** Decimal rendering of a natural number, as a JavaScript template literal
    `${i}` renders the loop counters that name banner files. */
module Decimal {

  /** The ASCII digit for a value 0..9. */
  function DigitChar(d: nat): (c: char)
    requires d < 10
    ensures '0' <= c <= '9'
    ensures c as int - '0' as int == d
  {
    (48 + d) as char
  }

  predicate IsDigits(s: string) {
    forall k :: 0 <= k < |s| ==> '0' <= s[k] <= '9'
  }

  /** Shortest decimal representation of n (no leading zeros). */
  function NatToString(n: nat): (s: string)
    ensures |s| >= 1
    ensures IsDigits(s)
    ensures n >= 10 <==> |s| >= 2
    decreases n
  {
    if n < 10 then [DigitChar(n)] else NatToString(n / 10) + [DigitChar(n % 10)]
  }

  /** Two distinct numbers never render to the same text, so a rendered file name
      determines the index it was built from. */
  lemma {:induction false} NatToStringInjective(a: nat, b: nat)
    requires NatToString(a) == NatToString(b)
    ensures a == b
    decreases a
  {
    var sa, sb := NatToString(a), NatToString(b);
    if a < 10 && b < 10 {
      assert sa[0] == DigitChar(a) && sb[0] == DigitChar(b);
    } else if a >= 10 && b >= 10 {
      var pa, pb := NatToString(a / 10), NatToString(b / 10);
      assert sa == pa + [DigitChar(a % 10)];
      assert sb == pb + [DigitChar(b % 10)];
      assert |pa| == |pb|;
      assert DigitChar(a % 10) == sa[|sa| - 1] == sb[|sb| - 1] == DigitChar(b % 10);
      assert pa == sa[..|sa| - 1] == sb[..|sb| - 1] == pb;
      NatToStringInjective(a / 10, b / 10);
    }
  }

  lemma SmallValues()
    ensures NatToString(1) == "1"
    ensures NatToString(2) == "2"
    ensures NatToString(3) == "3"
  {
  }
}

=== FILE: fallback.dfy ===
/** The local fallback used when the asset host yields nothing: read the manifest
    `/banners/config.json` and synthesise `/banners/1.jpg` .. `/banners/{n}.jpg`. */
module ManifestFallback {
  import opened Options
  import opened BannerUrls

  /** The manifest fetch as the fallback sees it: a non-success status, a success
      status with the payload's `count` (None when it is missing or falsy), or a
      thrown error from the fetch or from reading the payload. */
  datatype Manifest = ManifestNotOk | ManifestOk(count: Option<int>) | ManifestThrow

  /** `config.count || 0`: a missing count reads as zero. */
  function CountOrZero(count: Option<int>): int {
    count.GetOr(0)
  }

  /** The fallback list. It is never empty and is always the first few local
      references in order: exactly `count` of them for a positive count, exactly
      MaxBanners when the count is missing or not positive or the response is not
      ok, and the fixed three-entry list when the fetch throws. */
  function ResolveFallback(m: Manifest): (list: seq<string>)
    ensures |list| >= 1
    ensures IsLocalRange(list, |list|)
    ensures m.ManifestThrow? ==> list == DefaultBanners
    ensures m.ManifestOk? && m.count.Some? && m.count.value > 0 ==> IsLocalRange(list, m.count.value)
    ensures m.ManifestOk? && (m.count.None? || m.count.value <= 0) ==> IsLocalRange(list, MaxBanners)
    ensures m.ManifestNotOk? ==> IsLocalRange(list, MaxBanners)
  {
    match m
    case ManifestOk(count) =>
      var n := CountOrZero(count);
      if n > 0 then LocalRange(n) else LocalRange(MaxBanners)
    case ManifestNotOk => LocalRange(MaxBanners)
    case ManifestThrow =>
      DefaultBannersAreLocalRange();
      DefaultBanners
  }
}

=== FILE: options.dfy ===
/** The optional value used throughout the banner model: a cached entry that may be
    absent, a manifest count that may be missing, a timer reference that may be empty. */
module Options {

  datatype Option<+T> = None | Some(value: T) {

    /** Returns the value held in Some, or the given default if None. */
    function GetOr(default: T): T {
      match this
      case Some(v) => v
      case None => default
    }
  }
}

=== FILE: probe.dfy ===
/** Remote discovery: for each candidate index 1..MaxBanners, in order, a HEAD check
    of the png variant and, only when that answers not-ok, of the jpg variant. The
    network is an oracle from URL to outcome. */
module Probe {
  import opened Options
  import opened BannerUrls

  /** What one HEAD request yields: a success status, a non-success status, or a
      thrown error (network failure). */
  datatype Check = Ok | NotOk | Throw

  type Oracle = string -> Check

  /** An existence check the probe issued, named by candidate index and variant. */
  datatype Request = Request(index: nat, ext: Ext)

  /** An accepted candidate: its index and the variant that answered ok. */
  datatype Hit = Hit(index: nat, ext: Ext)

  datatype ProbeRun = ProbeRun(hits: seq<Hit>, requests: seq<Request>)

  /** The variant accepted for candidate i, if any. A thrown png check ends the
      attempt for i without trying jpg; a thrown jpg check counts as not found. */
  function Accepted(head: Oracle, base: string, i: nat): Option<Ext> {
    match head(RemoteUrl(base, i, Png))
    case Ok => Some(Png)
    case Throw => None
    case NotOk => if head(RemoteUrl(base, i, Jpg)) == Ok then Some(Jpg) else None
  }

  /** The hit candidate i contributes: none, or one with the accepted variant. */
  function IndexHits(head: Oracle, base: string, i: nat): seq<Hit> {
    match Accepted(head, base, i)
    case Some(e) => [Hit(i, e)]
    case None => []
  }

  /** The checks issued for candidate i, in order. */
  function IndexRequests(head: Oracle, base: string, i: nat): seq<Request> {
    if head(RemoteUrl(base, i, Png)) == NotOk then [Request(i, Png), Request(i, Jpg)]
    else [Request(i, Png)]
  }

  /** The order in which checks are issued: by index, png before jpg. */
  predicate Precedes(a: Request, b: Request) {
    a.index < b.index || (a.index == b.index && a.ext == Png && b.ext == Jpg)
  }

  /** Probing candidates 1..n in order: the run over 1..n-1, then candidate n's
      checks and its hit, if any. */
  function ProbeUpTo(head: Oracle, base: string, n: nat): ProbeRun {
    if n == 0 then ProbeRun([], [])
    else
      var prev := ProbeUpTo(head, base, n - 1);
      ProbeRun(prev.hits + IndexHits(head, base, n), prev.requests + IndexRequests(head, base, n))
  }

  /** The hits come in strictly increasing index order, from the probed range,
      and there are at most as many as candidates probed. */
  lemma {:induction false} ProbeHitsOrdered(head: Oracle, base: string, n: nat)
    ensures var hits := ProbeUpTo(head, base, n).hits;
      && |hits| <= n
      && (forall a :: 0 <= a < |hits| ==> 1 <= hits[a].index <= n)
      && (forall a, b :: 0 <= a < b < |hits| ==> hits[a].index < hits[b].index)
  {
    if n > 0 {
      ProbeHitsOrdered(head, base, n - 1);
    }
  }

  /** A candidate is among the hits, with a given variant, exactly when that
      variant is the one accepted for it. */
  lemma {:induction false} ProbeHitsExact(head: Oracle, base: string, n: nat)
    ensures forall h :: h in ProbeUpTo(head, base, n).hits <==>
      1 <= h.index <= n && Accepted(head, base, h.index) == Some(h.ext)
  {
    if n > 0 {
      ProbeHitsExact(head, base, n - 1);
    }
  }

  /** A check is issued for candidate k's png variant for every probed k, and for
      its jpg variant exactly when the png check answered not-ok. */
  lemma {:induction false} ProbeRequestsExact(head: Oracle, base: string, n: nat)
    ensures forall r :: r in ProbeUpTo(head, base, n).requests <==>
      && 1 <= r.index <= n
      && (r.ext == Png || head(RemoteUrl(base, r.index, Png)) == NotOk)
  {
    if n > 0 {
      ProbeRequestsExact(head, base, n - 1);
      var here := IndexRequests(head, base, n);
      forall r | r in here
        ensures r.index == n && (r.ext == Png || head(RemoteUrl(base, n, Png)) == NotOk)
      {
      }
      forall r: Request | r.index == n && (r.ext == Png || head(RemoteUrl(base, n, Png)) == NotOk)
        ensures r in here
      {
        if r.ext == Jpg {
          assert here[1] == r;
        } else {
          assert here[0] == r;
        }
      }
    }
  }

  /** Checks are issued in order: by index, png before jpg, never twice. */
  lemma {:induction false} ProbeRequestsOrdered(head: Oracle, base: string, n: nat)
    ensures forall r :: r in ProbeUpTo(head, base, n).requests ==> r.index <= n
    ensures forall a, b :: 0 <= a < b < |ProbeUpTo(head, base, n).requests| ==>
      Precedes(ProbeUpTo(head, base, n).requests[a], ProbeUpTo(head, base, n).requests[b])
  {
    if n > 0 {
      ProbeRequestsOrdered(head, base, n - 1);
      var prev, here := ProbeUpTo(head, base, n - 1).requests, IndexRequests(head, base, n);
      var reqs := prev + here;
      assert reqs == ProbeUpTo(head, base, n).requests;
      assert forall a :: 0 <= a < |here| ==> here[a].index == n;
      assert forall r :: r in here ==> r.index == n;
      forall a, b | 0 <= a < b < |reqs|
        ensures Precedes(reqs[a], reqs[b])
      {
        if b < |prev| {
          assert reqs[a] == prev[a] && reqs[b] == prev[b];
        } else if a >= |prev| {
          assert a - |prev| == 0 && b - |prev| == 1;
        } else {
          assert reqs[a] == prev[a] && prev[a] in prev && reqs[b] == here[b - |prev|];
        }
      }
    }
  }

  /** When no candidate in 1..n is accepted the probe finds nothing, which is the
      condition for falling back to the local manifest. */
  lemma {:induction false} ProbeFindsNothing(head: Oracle, base: string, n: nat)
    requires forall k :: 1 <= k <= n ==> Accepted(head, base, k).None?
    ensures ProbeUpTo(head, base, n).hits == []
  {
    if n > 0 {
      ProbeFindsNothing(head, base, n - 1);
    }
  }

  /** The whole probe, over candidates 1..MaxBanners. */
  function ProbeAll(head: Oracle, base: string): ProbeRun {
    ProbeUpTo(head, base, MaxBanners)
  }

  function HitUrl(base: string, h: Hit): string {
    RemoteUrl(base, h.index, h.ext)
  }

  /** The references of the accepted candidates, in the same order. */
  function HitUrls(base: string, hits: seq<Hit>): (urls: seq<string>)
    ensures |urls| == |hits|
    ensures forall k :: 0 <= k < |hits| ==> urls[k] == HitUrl(base, hits[k])
  {
    seq(|hits|, k requires 0 <= k < |hits| => HitUrl(base, hits[k]))
  }

  lemma HitUrlsAppend(base: string, a: seq<Hit>, b: seq<Hit>)
    ensures HitUrls(base, a + b) == HitUrls(base, a) + HitUrls(base, b)
  {
    var l, r := HitUrls(base, a + b), HitUrls(base, a) + HitUrls(base, b);
    forall k | 0 <= k < |l|
      ensures l[k] == r[k]
    {
      if k < |a| {
        assert (a + b)[k] == a[k];
      } else {
        assert (a + b)[k] == b[k - |a|];
      }
    }
  }

  /** The list the probe hands to the orchestrator. */
  function ProbeUrls(head: Oracle, base: string): seq<string> {
    HitUrls(base, ProbeAll(head, base).hits)
  }

  /** The probe lists at most MaxBanners references, each one a png or jpg
      reference of a candidate in 1..MaxBanners, and none of them twice. */
  lemma ProbeBounded(head: Oracle, base: string)
    ensures var urls := ProbeUrls(head, base);
      && |urls| <= MaxBanners
      && (forall a :: 0 <= a < |urls| ==>
            exists k, e :: 1 <= k <= MaxBanners && urls[a] == RemoteUrl(base, k, e))
      && (forall a, b :: 0 <= a < b < |urls| ==> urls[a] != urls[b])
  {
    var hits := ProbeAll(head, base).hits;
    var urls := ProbeUrls(head, base);
    ProbeHitsOrdered(head, base, MaxBanners);
    forall a | 0 <= a < |urls|
      ensures exists k, e :: 1 <= k <= MaxBanners && urls[a] == RemoteUrl(base, k, e)
    {
      assert urls[a] == RemoteUrl(base, hits[a].index, hits[a].ext);
    }
    forall a, b | 0 <= a < b < |urls|
      ensures urls[a] != urls[b]
    {
      if urls[a] == urls[b] {
        RemoteUrlInjective(base, hits[a].index, hits[a].ext, hits[b].index, hits[b].ext);
      }
    }
  }

  /** Every reference the probe lists lies on the host it probed. */
  lemma ProbeOnHost(head: Oracle, base: string)
    ensures forall u :: u in ProbeUrls(head, base) ==> OnHost(u, base)
  {
    var hits := ProbeAll(head, base).hits;
    var urls := ProbeUrls(head, base);
    forall u | u in urls
      ensures OnHost(u, base)
    {
      var a :| 0 <= a < |urls| && urls[a] == u;
      assert u == RemoteUrl(base, hits[a].index, hits[a].ext);
      RemoteUrlOnHost(base, hits[a].index, hits[a].ext);
    }
  }

  /** The host setting decides where the probe looks: a set, non-empty setting
      puts every listed reference under that host's banner folder, and an unset
      or empty one puts every listed reference under the default host's. */
  lemma ProbeOnConfiguredHost(head: Oracle, configured: Option<string>)
    ensures configured.Some? && configured.value != "" ==>
      forall u :: u in ProbeUrls(head, BaseUrl(configured)) ==> OnHost(u, configured.value)
    ensures configured.None? || configured.value == "" ==>
      forall u :: u in ProbeUrls(head, BaseUrl(configured)) ==> OnHost(u, DefaultHost)
  {
    ProbeOnHost(head, BaseUrl(configured));
  }

  /** Which variant the probe lists for each candidate, in terms of the network
      alone: the png reference exactly when its check answered ok; the jpg
      reference exactly when png answered not-ok and jpg answered ok. */
  lemma ProbePreference(head: Oracle, base: string, k: nat)
    requires 1 <= k <= MaxBanners
    ensures RemoteUrl(base, k, Png) in ProbeUrls(head, base) <==>
      head(RemoteUrl(base, k, Png)) == Ok
    ensures RemoteUrl(base, k, Jpg) in ProbeUrls(head, base) <==>
      head(RemoteUrl(base, k, Png)) == NotOk && head(RemoteUrl(base, k, Jpg)) == Ok
  {
    var hits := ProbeAll(head, base).hits;
    var urls := ProbeUrls(head, base);
    ProbeHitsExact(head, base, MaxBanners);
    forall e | RemoteUrl(base, k, e) in urls
      ensures Accepted(head, base, k) == Some(e)
    {
      var a :| 0 <= a < |urls| && urls[a] == RemoteUrl(base, k, e);
      assert hits[a] in hits;
      RemoteUrlInjective(base, k, e, hits[a].index, hits[a].ext);
    }
    if Accepted(head, base, k).Some? {
      var h := Hit(k, Accepted(head, base, k).value);
      assert h in hits;
      var a :| 0 <= a < |hits| && hits[a] == h;
      assert urls[a] == RemoteUrl(base, k, h.ext);
    }
  }

  /** The checks the probe issues: every candidate gets its png check, even after
      an earlier candidate's check threw; the jpg check is issued exactly when
      the png check answered not-ok, so a thrown png check issues none. */
  lemma ProbeChecks(head: Oracle, base: string, k: nat)
    requires 1 <= k <= MaxBanners
    ensures Request(k, Png) in ProbeAll(head, base).requests
    ensures Request(k, Jpg) in ProbeAll(head, base).requests <==>
      head(RemoteUrl(base, k, Png)) == NotOk
  {
    ProbeRequestsExact(head, base, MaxBanners);
  }

  /** One pass of the component's probing loop: the png check, appending and
      moving on when it answers ok; otherwise the jpg check; a thrown check is
      swallowed and the candidate contributes nothing. */
  method CheckCandidate(head: Oracle, base: string, i: nat) returns (found: seq<string>, issued: seq<Request>)
    ensures found == HitUrls(base, IndexHits(head, base, i))
    ensures issued == IndexRequests(head, base, i)
  {
    var pngUrl := RemoteUrl(base, i, Png);
    var jpgUrl := RemoteUrl(base, i, Jpg);
    found, issued := [], [Request(i, Png)];
    var png := head(pngUrl);
    if png == Ok {
      found := [pngUrl];
      return;
    } else if png == NotOk {
      issued := issued + [Request(i, Jpg)];
      var jpg := head(jpgUrl);
      if jpg == Ok {
        found := [jpgUrl];
      }
    }
  }

  /** The probe as the component runs it: a counting loop over the candidates,
      appending what each pass finds. It yields the same list and issues the
      same checks, in the same order, as ProbeAll. */
  method ProbeRemote(head: Oracle, base: string) returns (urls: seq<string>, requests: seq<Request>)
    ensures urls == ProbeUrls(head, base)
    ensures requests == ProbeAll(head, base).requests
  {
    urls, requests := [], [];
    var i := 1;
    while i <= MaxBanners
      invariant 1 <= i <= MaxBanners + 1
      invariant urls == HitUrls(base, ProbeUpTo(head, base, i - 1).hits)
      invariant requests == ProbeUpTo(head, base, i - 1).requests
    {
      var found, issued := CheckCandidate(head, base, i);
      HitUrlsAppend(base, ProbeUpTo(head, base, i - 1).hits, IndexHits(head, base, i));
      urls, requests := urls + found, requests + issued;
      i := i + 1;
    }
  }
}

=== FILE: resolution.dfy ===
/** The load sequence run once per mount: drop the session cache on a hard reload,
    answer from the cache when it holds a list, otherwise probe the asset host,
    fall back to the local manifest when the probe finds nothing, and persist the
    result under the session key `banners`. */
module Resolution {
  import opened Options
  import opened BannerUrls
  import opened Probe
  import opened ManifestFallback

  /** What reading the session entry yields once it is present: a parsed list, or
      a payload that fails to parse. */
  datatype CacheValue = Parsed(list: seq<string>) | Malformed

  /** The session store's entry under the key `banners`; None when absent. */
  type Store = Option<CacheValue>

  /** The outcome of one load: the list handed to the carousel, whether local
      (public-folder) rendering is selected, the store afterwards, the existence
      checks issued, and whether the manifest fallback ran. */
  datatype Loaded = Loaded(
    banners: seq<string>,
    publicMode: bool,
    stored: Store,
    requests: seq<Request>,
    fellBack: bool)

  /** The store as the load sees it: a hard reload (navigation type 1) removes the
      entry before anything reads it. */
  function StoreAfterNavigation(hardReload: bool, stored: Store): Store {
    if hardReload then None else stored
  }

  /** The load itself, against a given store. A stored list short-circuits
      everything; a malformed entry makes the outer handler install the default
      list in local mode without writing; otherwise the probe runs, then the
      fallback if it found nothing, and the result is written. A failed write is
      caught by the outer handler too. */
  function LoadBanners(stored: Store, head: Oracle, configured: Option<string>, manifest: Manifest, writeOk: bool): Loaded {
    var base := BaseUrl(configured);
    match stored
    case Some(Parsed(list)) => Loaded(list, false, stored, [], false)
    case Some(Malformed) => Loaded(DefaultBanners, true, stored, [], false)
    case None =>
      var run := ProbeAll(head, base);
      var found := HitUrls(base, run.hits);
      var fellBack := found == [];
      var list := if fellBack then ResolveFallback(manifest) else found;
      if writeOk then Loaded(list, fellBack, Some(Parsed(list)), run.requests, fellBack)
      else Loaded(DefaultBanners, true, stored, run.requests, fellBack)
  }

  /** One mount's resolution, from the navigation signal and the session store
      as found. */
  function Mount(hardReload: bool, stored: Store, head: Oracle, configured: Option<string>, manifest: Manifest, writeOk: bool): (r: Loaded)
    // A cache hit: the cached list, unchanged, with no existence check issued.
    ensures !hardReload && stored.Some? && stored.value.Parsed? ==>
      && r.banners == stored.value.list
      && r.requests == []
      && !r.publicMode && !r.fellBack
      && r.stored == stored
    // A malformed entry: the three defaults in local mode, nothing probed or written.
    ensures !hardReload && stored == Some(Malformed) ==>
      && r.banners == DefaultBanners
      && r.publicMode && r.requests == []
      && r.stored == stored
    // A miss (after a hard reload, always): the probe runs over every candidate.
    ensures hardReload || stored.None? ==> r.requests == ProbeAll(head, BaseUrl(configured)).requests
    // The fallback runs exactly on a miss whose probe found nothing.
    ensures r.fellBack <==> (hardReload || stored.None?) && ProbeUrls(head, BaseUrl(configured)) == []
    // A miss whose write succeeds: the resolved list is never empty, it is the
    // probe's list in remote mode or the fallback's list in local mode, and it is
    // what the store now holds.
    ensures (hardReload || stored.None?) && writeOk ==>
      && |r.banners| >= 1
      && r.stored == Some(Parsed(r.banners))
      && (r.publicMode <==> r.fellBack)
      && (!r.fellBack ==> r.banners == ProbeUrls(head, BaseUrl(configured)))
      && (r.fellBack ==> r.banners == ResolveFallback(manifest))
    // A miss whose write throws: the three defaults in local mode, store left empty.
    ensures (hardReload || stored.None?) && !writeOk ==>
      && r.banners == DefaultBanners
      && r.publicMode
      && r.stored.None?
  {
    LoadBanners(StoreAfterNavigation(hardReload, stored), head, configured, manifest, writeOk)
  }

  /** What the widget itself ever leaves in the store: nothing, an unreadable
      entry, or a non-empty list. */
  predicate StoreWellFormed(stored: Store) {
    stored.Some? && stored.value.Parsed? ==> |stored.value.list| >= 1
  }

  /** Write-then-read round trip: a mount that missed and wrote its list is
      answered by the next mount without a reload signal from the cache, with
      the same list and no existence check. */
  lemma CacheRoundTrip(hardReload: bool, stored: Store, head: Oracle, configured: Option<string>, manifest: Manifest,
                       head2: Oracle, manifest2: Manifest, writeOk2: bool)
    requires hardReload || stored.None?
    ensures var first := Mount(hardReload, stored, head, configured, manifest, true);
      var second := Mount(false, first.stored, head2, configured, manifest2, writeOk2);
      && second.banners == first.banners
      && second.requests == []
      && second.stored == first.stored
  {
  }

  /** A hard reload makes the entry found in the store irrelevant: whatever it
      held, stale list or unreadable payload, the mount resolves exactly as a
      first mount on an empty store would. */
  lemma ReloadIgnoresStore(s1: Store, s2: Store, head: Oracle, configured: Option<string>,
                           manifest: Manifest, writeOk: bool)
    ensures Mount(true, s1, head, configured, manifest, writeOk)
         == Mount(true, s2, head, configured, manifest, writeOk)
    ensures Mount(true, s1, head, configured, manifest, writeOk)
         == Mount(false, None, head, configured, manifest, writeOk)
  {
  }

  /** Across mounts of one session the store stays well formed, and every mount
      that starts from a well-formed store produces a non-empty list. */
  lemma SessionNeverEmpty(hardReload: bool, stored: Store, head: Oracle, configured: Option<string>, manifest: Manifest, writeOk: bool)
    requires StoreWellFormed(stored)
    ensures var r := Mount(hardReload, stored, head, configured, manifest, writeOk);
      |r.banners| >= 1 && StoreWellFormed(r.stored)
  {
  }

  /** Every check answers not-ok and the manifest gives a count of four: four
      sequential local references, in local mode, written to the store. */
  lemma AllMissingManifestCountExample(head: Oracle, configured: Option<string>)
    requires forall u :: head(u) == NotOk
    ensures var r := Mount(false, None, head, configured, ManifestOk(Some(4)), true);
      && IsLocalRange(r.banners, 4)
      && r.publicMode && r.fellBack
      && r.stored == Some(Parsed(r.banners))
  {
    ProbeFindsNothing(head, BaseUrl(configured), MaxBanners);
  }

  /** Every check answers not-ok and the manifest fetch throws: the fixed three
      entries, in local mode. */
  lemma AllMissingManifestThrowsExample(head: Oracle, configured: Option<string>)
    requires forall u :: head(u) == NotOk
    ensures var r := Mount(false, None, head, configured, ManifestThrow, true);
      && r.banners == DefaultBanners
      && r.publicMode && r.fellBack
  {
    ProbeFindsNothing(head, BaseUrl(configured), MaxBanners);
  }

  /** Candidates 1 and 3 exist as png and nothing else exists: exactly those two
      remote references, in order, in remote mode, without the fallback. */
  lemma OneAndThreeFoundExample(head: Oracle, configured: Option<string>)
    requires head(RemoteUrl(BaseUrl(configured), 1, Png)) == Ok && head(RemoteUrl(BaseUrl(configured), 3, Png)) == Ok
    requires forall e :: head(RemoteUrl(BaseUrl(configured), 2, e)) == NotOk
    requires forall e :: head(RemoteUrl(BaseUrl(configured), 4, e)) == NotOk
    requires forall e :: head(RemoteUrl(BaseUrl(configured), 5, e)) == NotOk
    ensures var r := Mount(false, None, head, configured, ManifestThrow, true);
      && r.banners == [RemoteUrl(BaseUrl(configured), 1, Png), RemoteUrl(BaseUrl(configured), 3, Png)]
      && !r.publicMode && !r.fellBack
  {
    assert IndexHits(head, BaseUrl(configured), 1) == [Hit(1, Png)];
    assert IndexHits(head, BaseUrl(configured), 2) == [];
    assert IndexHits(head, BaseUrl(configured), 3) == [Hit(3, Png)];
    assert IndexHits(head, BaseUrl(configured), 4) == [];
    assert IndexHits(head, BaseUrl(configured), 5) == [];
    assert ProbeUpTo(head, BaseUrl(configured), 1).hits == [Hit(1, Png)];
    assert ProbeUpTo(head, BaseUrl(configured), 2).hits == [Hit(1, Png)];
    assert ProbeUpTo(head, BaseUrl(configured), 3).hits == [Hit(1, Png), Hit(3, Png)];
    assert ProbeUpTo(head, BaseUrl(configured), 4).hits == [Hit(1, Png), Hit(3, Png)];
    assert ProbeUpTo(head, BaseUrl(configured), 5).hits == [Hit(1, Png), Hit(3, Png)];
  }
}

=== FILE: rotation.dfy ===
/** The carousel once a list is resolved: the current index, advanced by a
    repeating timer and by manual navigation, and repaired when an image fails to
    render and is dropped from the list. Intervals are abstract handles. */
module Rotation {
  import opened Options

  /** `timer` is the component's timer reference; clearing an interval does not
      reset it, so it may name an interval that is no longer live. `live` holds
      the intervals actually scheduled; `issued` counts the intervals ever
      scheduled, so `issued` is always a fresh handle. */
  datatype Carousel = Carousel(
    banners: seq<string>,
    index: nat,
    timer: Option<nat>,
    live: set<nat>,
    issued: nat)

  /** Navigation requests: the next and previous buttons and the indicator dots. */
  datatype Direction = Next | Prev | To(target: nat)

  /** The state at mount: no list, index 0, no interval. */
  const Initial: Carousel := Carousel([], 0, None, {}, 0)

  /** The invariant of every reachable state: the index is in range whenever the
      list is non-empty; every live interval is the one the reference names (so
      at most one is live); an interval is live only while there are at least two
      banners; the reference never names a handle not yet issued. */
  predicate Valid(c: Carousel) {
    && (|c.banners| > 0 ==> c.index < |c.banners|)
    && TimerTracked(c)
    && (c.live != {} ==> |c.banners| >= 2)
  }

  /** The timer bookkeeping alone, whatever the list: every live interval is the
      one the reference names, and the reference never names a handle not yet
      issued. It holds even in the moment after the list has shrunk and before
      the timer effect has re-run. */
  predicate TimerTracked(c: Carousel) {
    && (forall h :: h in c.live ==> c.timer == Some(h))
    && (c.timer.Some? ==> c.timer.value < c.issued)
  }

  lemma InitialValid()
    ensures Valid(Initial)
  {
  }

  /** In a valid state at most one interval is live. */
  lemma AtMostOneLive(c: Carousel)
    requires Valid(c)
    ensures |c.live| <= 1
    ensures c.live != {} ==> c.live == {c.timer.value}
  {
    if c.live != {} {
      var h :| h in c.live;
      assert c.live == {h};
    }
  }

  /** `clearInterval` on the referenced interval, if any. The reference itself is
      kept. In a valid state nothing is live afterwards. */
  function ClearTimer(c: Carousel): (r: Carousel)
    ensures r.banners == c.banners && r.index == c.index && r.timer == c.timer && r.issued == c.issued
    ensures r.live <= c.live
    ensures TimerTracked(c) ==> r.live == {} && TimerTracked(r)
    ensures Valid(c) ==> Valid(r)
  {
    match c.timer
    case Some(h) => c.(live := c.live - {h})
    case None => c
  }

  /** Starting the auto-slide interval: nothing at all with fewer than two
      banners; otherwise the referenced interval is cleared first and exactly one
      fresh interval is live afterwards. */
  function StartTimer(c: Carousel): (r: Carousel)
    ensures |c.banners| <= 1 ==> r == c
    ensures r.banners == c.banners && r.index == c.index
    ensures |c.banners| >= 2 ==>
      && r.timer == Some(c.issued)
      && r.live == (if c.timer.Some? then c.live - {c.timer.value} else c.live) + {c.issued}
    ensures TimerTracked(c) && |c.banners| >= 2 ==> r.live == {c.issued} && c.issued !in c.live
    ensures TimerTracked(c) ==> TimerTracked(r)
    ensures Valid(c) ==> Valid(r)
  {
    if |c.banners| <= 1 then c
    else
      var cleared := ClearTimer(c);
      cleared.(timer := Some(cleared.issued), live := cleared.live + {cleared.issued}, issued := cleared.issued + 1)
  }

  /** The list changed identity (`c` already holds the new list, possibly with a
      stale interval still live): the timer effect's cleanup clears the old
      interval, then the effect starts a fresh one if the new list has at least
      two banners, and none otherwise. */
  function ListChanged(c: Carousel): (r: Carousel)
    ensures r.banners == c.banners && r.index == c.index
    ensures TimerTracked(c) && |c.banners| >= 2 ==>
      r.live == {c.issued} && r.timer == Some(c.issued) && c.issued !in c.live
    ensures TimerTracked(c) && |c.banners| <= 1 ==> r.live == {}
    ensures TimerTracked(c) && (|c.banners| > 0 ==> c.index < |c.banners|) ==> Valid(r)
  {
    StartTimer(ClearTimer(c))
  }

  /** The resolved list arrives at the freshly mounted carousel. */
  function Mounted(list: seq<string>): (r: Carousel)
    ensures Valid(r)
    ensures r.banners == list && r.index == 0
    ensures r.live == {} <==> |list| <= 1
  {
    InitialValid();
    ListChanged(Initial.(banners := list))
  }

  /** One firing of the live interval: advance by one, wrapping at the end. */
  function Tick(c: Carousel): (r: Carousel)
    requires Valid(c)
    ensures Valid(r)
    ensures r.banners == c.banners && r.live == c.live && r.timer == c.timer
    ensures c.live == {} ==> r == c
    ensures c.live != {} ==> r.index == if c.index == |c.banners| - 1 then 0 else c.index + 1
  {
    if c.live == {} then c else c.(index := (c.index + 1) % |c.banners|)
  }

  /** The index a navigation request selects in a list of n banners. */
  function Target(index: nat, n: nat, d: Direction): nat
    requires n > 0
  {
    match d
    case To(k) => k
    case Next => (index + 1) % n
    case Prev => if index == 0 then n - 1 else index - 1
  }

  /** Requests the rendered controls can produce: next and previous always, and a
      jump only to an index an indicator is drawn for. */
  predicate Offered(c: Carousel, d: Direction) {
    d.To? ==> d.target < |c.banners|
  }

  /** Manual navigation: ignored on an empty list; otherwise the interval is
      cleared, the index moves, and the interval is restarted, so it is restarted
      rather than duplicated. */
  function Navigate(c: Carousel, d: Direction): (r: Carousel)
    ensures |c.banners| == 0 ==> r == c
    ensures r.banners == c.banners
    ensures |c.banners| > 0 ==> r.index == Target(c.index, |c.banners|, d)
    ensures Valid(c) && Offered(c, d) ==> Valid(r)
    ensures Valid(c) && |c.banners| >= 2 ==> r.live == {c.issued} && r.timer == Some(c.issued)
    ensures Valid(c) && |c.banners| == 1 ==> r.live == {}
  {
    if |c.banners| == 0 then c
    else StartTimer(ClearTimer(c).(index := Target(c.index, |c.banners|, d)))
  }

  /** `splice(j, 1)` on a copy of the list: the entry at j is removed and the rest
      keep their order; an index past the end removes nothing. */
  function RemoveAt(s: seq<string>, j: nat): (r: seq<string>)
    ensures j < |s| ==> |r| == |s| - 1
    ensures j < |s| ==> forall k :: 0 <= k < j ==> r[k] == s[k]
    ensures j < |s| ==> forall k :: j <= k < |r| ==> r[k] == s[k + 1]
    ensures j < |s| ==> multiset(r) + multiset{s[j]} == multiset(s)
    ensures j >= |s| ==> r == s
  {
    if j < |s| then
      assert s == s[..j] + [s[j]] + s[j + 1..];
      s[..j] + s[j + 1..]
    else s
  }

  /** An image at position j failed to render: it is dropped, and the index is
      reset to 0 exactly when it now points past the end of a non-empty list;
      otherwise it is left as it was (not shifted). The new list then restarts
      the timer effect. */
  function ImageFailed(c: Carousel, j: nat): (r: Carousel)
    ensures r.banners == RemoveAt(c.banners, j)
    ensures c.index >= |r.banners| && |r.banners| > 0 ==> r.index == 0
    ensures !(c.index >= |r.banners| && |r.banners| > 0) ==> r.index == c.index
    ensures Valid(c) ==> Valid(r)
    ensures Valid(c) ==> (r.live == {} <==> |r.banners| <= 1)
  {
    var list := RemoveAt(c.banners, j);
    var index := if c.index >= |list| && |list| > 0 then 0 else c.index;
    ListChanged(c.(banners := list, index := index))
  }

  /** Unmount: the timer effect's cleanup clears the interval; none stays live. */
  function Unmount(c: Carousel): (r: Carousel)
    requires Valid(c)
    ensures r.live == {}
    ensures r.banners == c.banners && r.index == c.index
  {
    ClearTimer(c)
  }

  /** Events that reach a mounted carousel. */
  datatype Event = Fire | Navigated(d: Direction) | Failed(j: nat)

  function Step(c: Carousel, e: Event): Carousel
    requires Valid(c)
  {
    match e
    case Fire => Tick(c)
    case Navigated(d) => if Offered(c, d) then Navigate(c, d) else c
    case Failed(j) => ImageFailed(c, j)
  }

  /** Any sequence of events from a valid state ends in a valid state: the index
      stays in range however the list shrinks, and at most one interval is live. */
  function Run(c: Carousel, events: seq<Event>): (r: Carousel)
    requires Valid(c)
    ensures Valid(r)
    ensures |r.live| <= 1
    ensures |r.banners| <= |c.banners|
    decreases |events|
  {
    if events == [] then AtMostOneLive(c); c
    else Run(Step(c, events[0]), events[1..])
  }

  /** Previous undoes next and next undoes previous, on the index alone. */
  lemma TargetNextPrevInverse(i: nat, n: nat)
    requires i < n
    ensures Target(Target(i, n, Next), n, Prev) == i
    ensures Target(Target(i, n, Prev), n, Next) == i
  {
    if i + 1 == n {
      ModUnique(i + 1, n, 1, 0);
    } else {
      ModUnique(i + 1, n, 0, i + 1);
    }
    if i == 0 {
      ModUnique(n, n, 1, 0);
    } else {
      ModUnique(i, n, 0, i);
    }
  }

  /** Previous undoes next and next undoes previous, from any in-range index. */
  lemma NextPrevInverse(c: Carousel)
    requires Valid(c) && |c.banners| > 0
    ensures Navigate(Navigate(c, Next), Prev).index == c.index
    ensures Navigate(Navigate(c, Prev), Next).index == c.index
  {
    TargetNextPrevInverse(c.index, |c.banners|);
  }

  /** The previous-button rule agrees with modular decrement on in-range indices. */
  lemma PrevIsModularDecrement(c: Carousel)
    requires Valid(c) && |c.banners| > 0
    ensures Navigate(c, Prev).index == (c.index - 1 + |c.banners|) % |c.banners|
  {
  }

  /** A timer firing and the next button move to the same index. */
  lemma TickAgreesWithNext(c: Carousel)
    requires Valid(c) && c.live != {}
    ensures Tick(c).index == Navigate(c, Next).index
  {
  }

  /** k firings of the interval. */
  function Ticks(c: Carousel, k: nat): (r: Carousel)
    requires Valid(c)
    ensures Valid(r)
    ensures r.banners == c.banners && r.live == c.live
    decreases k
  {
    if k == 0 then c else Ticks(Tick(c), k - 1)
  }

  /** With the interval live, k firings advance the index by k modulo the length,
      so after as many firings as there are banners the carousel is back where it
      started. */
  lemma {:induction false} TicksAdvance(c: Carousel, k: nat)
    requires Valid(c) && c.live != {}
    ensures Ticks(c, k).index == (c.index + k) % |c.banners|
    decreases k
  {
    if k > 0 {
      var t := Tick(c);
      assert Ticks(c, k) == Ticks(t, k - 1);
      TicksAdvance(t, k - 1);
      ModAddOne(c.index, k - 1, |c.banners|);
    }
  }

  /** Euclidean remainder is determined by any quotient/remainder split. */
  lemma ModUnique(a: int, n: int, q: int, r: int)
    requires n > 0 && 0 <= r < n && a == q * n + r
    ensures a % n == r
  {
    var q0, r0 := a / n, a % n;
    assert (q - q0) * n == r0 - r;
    if q - q0 >= 1 {
      assert false;
    } else if q - q0 <= -1 {
      assert false;
    }
  }

  lemma ModAddOne(i: nat, k: nat, n: nat)
    requires i < n
    ensures ((if i + 1 == n then 0 else i + 1) + k) % n == (i + k + 1) % n
  {
    if i + 1 == n {
      var q, r := k / n, k % n;
      ModUnique(i + k + 1, n, q + 1, r);
    }
  }

  /** Dropping failed images is not idempotent: failing position j again while it
      is still in range drops the entry that moved into it. */
  lemma RepeatedFailureDropsNext(s: seq<string>, j: nat)
    requires j + 1 < |s|
    ensures RemoveAt(RemoveAt(s, j), j) == s[..j] + s[j + 2..]
    ensures |RemoveAt(RemoveAt(s, j), j)| == |RemoveAt(s, j)| - 1
  {
    var once := RemoveAt(s, j);
    assert once == s[..j] + s[j + 1..];
    assert once[..j] == s[..j];
    assert once[j + 1..] == s[j + 2..];
  }

  /** Failing a position past the end changes nothing in the list. */
  lemma FailurePastEndKeepsList(c: Carousel, j: nat)
    requires Valid(c) && j >= |c.banners|
    ensures ImageFailed(c, j).banners == c.banners
    ensures ImageFailed(c, j).index == c.index
  {
  }

  /** Three banners showing the last one; the middle one fails. Two remain and the
      index, now past the end, is reset to 0 rather than shifted to 1. */
  lemma FailureResetsIndexExample(a: string, b: string, d: string)
    ensures var c := Navigate(Mounted([a, b, d]), To(2));
      var r := ImageFailed(c, 1);
      && c.index == 2
      && r.banners == [a, d]
      && r.index == 0
      && |r.live| == 1
  {
    var c := Navigate(Mounted([a, b, d]), To(2));
    assert RemoveAt(c.banners, 1) == [a, d];
    assert Valid(ImageFailed(c, 1));
    AtMostOneLive(ImageFailed(c, 1));
  }

  /** Four banners; a jump to the last one and then one firing wraps to the first,
      with exactly one interval live throughout. */
  lemma JumpThenTickExample(list: seq<string>)
    requires |list| == 4
    ensures var jumped := Navigate(Mounted(list), To(3));
      && jumped.index == 3
      && |jumped.live| == 1
      && Tick(jumped).index == 0
      && |Tick(jumped).live| == 1
  {
    var m := Mounted(list);
    var jumped := Navigate(m, To(3));
    assert jumped.live == {m.issued};
  }
}
